=== FILE: README.md ===
# Valentine proposal page — a Dafny model of its state machines

The page (`script.js`) is a click-through sequence of screens: a
hold-to-confirm button, a three-question quiz, a final Yes/No question with a
chain of five "Nahi" popups, a find-the-ring minigame, an envelope and a
valentine card, with a canvas confetti effect started and stopped along the
way. This project models the parts of it that have behaviour of their own, as
immutable state records and pure transition functions, and proves properties
of them:

- `HoldGesture` (`hold.dfy`): `startHold`, `stopHold`, `completeHold`, the
  50 ms progress interval and the 20 ms fill-reset interval, with
  `HOLD_DURATION` = 3000 ms.
- `JsString` (`jsstring.dfy`): `indexOf` and `replace` with a string pattern
  and a replacement without `$`. `replace` replaces only the first
  occurrence.
- `Quiz` (`quiz.dfy`): the option-click handler of `setupQuizButtons`. It
  covers selection within a container, the answer slot a container writes,
  `currentScreen = nextScreen.replace("Screen", "")`, and the end-of-quiz
  report.
- `Screens` (`screens.dfy`): the `active` class and inline `display` of the
  screens, `switchScreen`, and which target screens stop the confetti.
- `Confetti` (`confetti.dfy`): `ConfettiParticle` (constructor and `update`),
  `createConfetti` (80 particles), one `animateConfetti` frame,
  `stopConfetti`, and the extra 100 particles of the success screen.
- `RingGame` (`ringgame.dfy`): `initGame`'s rejection sampling of three
  distinct boxes out of nine, and `handleBoxClick`.
- `Popups` (`popups.dfy`): the linear chain of five popups. Popups 1 to 4
  have a Yes and a No button; popup 5 has only Yes.
- `Sequencer` (`sequencer.dfy`): the whole page as one `App` value. Every
  DOM event runs all of its listeners in registration order; this matters
  for the buttons with two listeners. Every `setTimeout` callback waits in a
  `pending` queue until an `Elapse` event runs it.

Timers, the clock and `Math.random()` are inputs. A `HoldTick(now)` event is
one firing of the progress interval at clock reading `now`. A `ResetTick` is
one firing of the reset interval. An `Elapse(i, …)` event runs the i-th
pending timeout. Random draws are values in [0, 1): eight per new particle
(in the constructor's order), one per particle per animation frame (used
only if that particle wraps), and one per box draw of the ring game.

Behaviour of `script.js` that the model reproduces as written:

- Re-clicking a found ring counts again. `handleBoxClick` only tests
  `ringPositions.includes(index)`, so a second click on a found ring adds
  another find. The win branch tests `ringsFound === 3`: three clicks on one
  ring win, and a fourth click takes the count to 4 with no second win
  (`RingGame.RepeatedRingClickCounts`).
- A press during a fill reset does not stop it. `resetInterval` is a local
  of `stopHold`, so `startHold` cannot clear it. A press within the 400 ms a
  reset from 80 % lasts lets 20 ms reset ticks and 50 ms progress ticks
  alternate on the fill while the button is held
  (`HoldGesture.ResetRunsDuringHold`). The fill therefore rises steadily only
  between progress ticks of one hold (`HoldGesture.TickFillMonotone`).
- A press in the 500 ms between completion and the screen switch starts a
  new hold, because `startHold` tests only `isHolding`. Releasing it before
  its first progress tick starts a reset from 100 %, which lowers the
  completed button's fill (`HoldGesture.ResetAfterCompletion`).
- Popup 5 has no No button. The chain ends there: No is pressed on popups
  1 to 4, and Yes on popup 5 closes it.
- No on a popup closes it at once, and only the opening of the next popup
  is delayed by 300 ms.
- Confetti is stopped only when the target of `switchScreen` is
  `quizScreen2`, `quizScreen3` or `finalScreen`. It is not stopped for the
  later screens.
- The end-of-quiz report shows the recorded answers 1 and 2 and, as the
  third, the answer of the option just clicked.
- Completing the hold hides the initial screen through its inline display
  but leaves its `active` class. "One screen on view" is stated in terms of
  visibility, which is the `active` class overridden by an inline display
  (`Screens.Visible`).

## Model

| member | source | states |
|---|---|---|
| HoldGesture.Progress | script.js:134-135 | the fill after a given hold time lies in [0, 100] for non-negative times, is 100 exactly from 3000 ms on, and before that is the elapsed share of 3000 ms in percent |
| HoldGesture.ProgressMonotone | script.js:134-135 | the fill never decreases as the hold time grows |
| HoldGesture.StartHold | script.js:127-131 | pressing while a hold is in progress changes nothing; otherwise the hold starts at the current clock reading and the fill is untouched |
| HoldGesture.CompleteHold | script.js:167-172 | completion clears `isHolding` and marks the button completed, leaving the fill alone |
| HoldGesture.HoldTick | script.js:133-142 | a tick while held sets the fill to the progress of the elapsed time (within [0, 100] for a clock that does not run back); it completes the hold exactly when 3000 ms have passed, and completion stops the hold with a full fill; without a hold there is no tick effect |
| HoldGesture.TickFillMonotone | script.js:133-137 | while held, a later progress tick never writes a smaller fill than an earlier one; reset ticks in between are not covered and can lower it |
| HoldGesture.CompletionIsFinal | script.js:167-169 | after the completing tick, further ticks change nothing, so completion happens once |
| HoldGesture.StopHold | script.js:146-154 | releasing without a hold changes nothing; otherwise the hold ends and a reset starts from the current fill |
| HoldGesture.ResetTick | script.js:156-163 | a reset tick lowers the width and fill by 5 while that stays positive; otherwise it pins both to 0 and ends the reset; it never goes below 0 |
| HoldGesture.RunReset | script.js:153-163 | the whole reset run writes widths that fall by 5 per tick and stay positive, then one final 0 exactly at the first tick that would reach 0 or below; none is negative |
| HoldGesture.ResetRunsDuringHold | script.js:127-163 | released at 2405 ms at 80 % and pressed again at 2410 ms, the reset interval keeps running: reset ticks and the first progress tick alternate on the held button's fill, which shows 75, 70, 5/3 and 65 |
| HoldGesture.ResetAfterCompletion | script.js:126-183 | after the completing tick, a press (guarded only by `isHolding`) released before its first progress tick starts a reset from 100, and the first reset tick leaves the completed button at 95 |
| HoldGesture.ResetTickWhileHeld | script.js:156-163 | a reset tick while the button is held keeps the hold running and overwrites the fill with the reset width less 5 |
| JsString.IndexFrom | script.js:279 | the search from a position finds the first occurrence at or after it, or reports -1 when there is none there |
| JsString.IndexOf | script.js:279 | -1 exactly when the pattern does not occur; otherwise an occurrence with none before it |
| JsString.ReplaceFirst | script.js:279 | without an occurrence the string is unchanged; with one the length changes by the length difference of pattern and replacement |
| JsString.ReplaceFirstSplit | script.js:279 | when the pattern does not start inside the prefix, replacing in prefix + pattern + rest yields prefix + replacement + rest |
| JsString.ReplaceFirstKeepsLater | script.js:279 | a second occurrence survives: only the first one is replaced |
| Quiz.SlotFor | script.js:267-273 | quizScreen1, quizScreen2 and quizScreen3 select slots 1, 2 and 3 respectively (both directions), every other container selects none |
| Quiz.SlotForInjective | script.js:267-273 | no two containers write the same slot |
| Quiz.RecordAnswer | script.js:266-273 | exactly the slot of the clicked container takes the answer, the other two keep theirs, and an unrecognised container changes no slot |
| Quiz.Select | script.js:256-260 | the clicked option becomes the only selected option of its container; selections in other containers are untouched |
| Quiz.NoScreenAt | script.js:279 | "Screen" cannot occur at a position holding a character other than S |
| Quiz.ScreenNameStrips | script.js:279 | for an id `<name>Screen<suffix>` whose name has no capital S, `currentScreen` becomes `<name><suffix>` |
| Quiz.ScreenNameQuiz2 | script.js:279 | the id "quizScreen2" gives the name "quiz2"; "quizScreen3" and "finalScreen" are instances of Quiz.ScreenNameStrips in the same way |
| Quiz.Report | script.js:285-287 | the report carries recorded answers 1 and 2 and the clicked answer as the third |
| Quiz.ReportOfThirdQuestion | script.js:285-287 | for the last option in the third quiz screen the report equals the recorded answers |
| Screens.SwitchScreen | script.js:192-199 | the target becomes active and on view, the source (when distinct) loses `active` and leaves view, and no other screen changes |
| Screens.SwitchKeepsOneVisible | script.js:192-199 | switching away from the one screen on view leaves exactly the target on view |
| Screens.ShowFirstQuiz | script.js:175-178 | completion hides the initial screen, activates the first quiz screen and changes no other screen |
| Screens.ShowFirstQuizKeepsOneVisible | script.js:175-178 | from the initial screen alone on view, the first quiz screen is then alone on view |
| Confetti.NewParticle | script.js:45-54 | with draws in [0, 1) a new particle lies within the canvas width and above the canvas top; its size is in [4, 12), its fall speed in [2, 5), its drift in [-1, 1), its rotation in [0, 360) and its rotation speed in [-5, 5) |
| Confetti.Update | script.js:74-83 | a particle moves by its speeds and turns by its rotation speed; when its new height passes the canvas height it restarts at -10 with a fresh x within the canvas width; size and speeds never change |
| Confetti.UpdateStaysInBounds | script.js:74-83 | an update keeps a particle's ranges and never leaves it below the canvas bottom |
| Confetti.UpdateWrapsFallen | script.js:79-82 | a particle already below the canvas bottom is above the top after one update |
| Confetti.Spawn | script.js:96-99 | spawning n particles gives exactly n, the i-th built from the i-th draw |
| Confetti.CreateConfetti | script.js:95-100 | the collection becomes exactly 80 particles, each within the canvas width, above the top and within the particle ranges |
| Confetti.Frame | script.js:105-108 | a frame keeps every particle (none is removed) and updates each one |
| Confetti.FrameStaysInBounds | script.js:105-108 | a frame keeps every particle within bounds |
| Confetti.Animate | script.js:102-111 | `animateConfetti` runs one frame at once and leaves the animation running |
| Confetti.StartBurst | script.js:95-111 | `createConfetti(); animateConfetti();` leaves 80 particles within bounds, with the animation running |
| Confetti.Tick | script.js:102-111 | a frame arrives: a stopped animation changes nothing, a running one updates every particle and keeps them within bounds |
| Confetti.Stop | script.js:113-119 | stopping ends the animation and keeps the particles |
| Confetti.AddExtra | script.js:568-572 | the delayed extra burst keeps the existing particles and appends 100 new ones, the i-th built from the i-th draw; with unit draws all stay within bounds |
| RingGame.CellOf | script.js:424 | a draw in [0, 1) picks a box in 0..8 |
| RingGame.PickExtends | script.js:422-426 | sampling keeps the boxes collected so far and adds only new boxes, so it yields at most three distinct boxes in 0..8 |
| RingGame.PickCovers | script.js:422-426 | when sampling yields fewer than three boxes, every box drawn is among them |
| RingGame.PickValid | script.js:422-426 | when the draws contain three different boxes, sampling yields exactly three distinct boxes in 0..8 |
| RingGame.SampleRings | script.js:422-426 | the loop ends with exactly three pairwise-distinct positions in 0..8, agrees with the reference sampling, consumes at least one draw, has every consumed draw's box among the positions, and stops on the draw that brought the third new box |
| RingGame.SampledStep | script.js:422-426 | one pass of the loop keeps the loop invariant: the rest of the sampling still yields the reference result and every drawn box is kept |
| RingGame.SampledDone | script.js:422-426 | when the loop stops its positions are the reference result, three distinct boxes in 0..8, and the last draw used is the one that completed them |
| RingGame.InitGame | script.js:414-435 | a new game has no finds, nine closed boxes, the drawn positions, "next" hidden and status hidden |
| RingGame.HandleBoxClick | script.js:438-460 | a ring box shows a ring, adds exactly one find and hides the status; any other box shows a miss, keeps the count and shows the status; "next" is shown exactly when it was already shown or this click makes the count exactly 3; no other box changes |
| RingGame.InitConsistent | script.js:414-435 | a new game satisfies the game invariant |
| RingGame.ClickKeepsConsistent | script.js:438-460 | every click keeps rings shown only at ring positions, misses only elsewhere, and "next" shown exactly when the count is at least 3 |
| RingGame.FindAllRings | script.js:438-453 | clicking the three rings in turn wins on the third click only, with count 3, "next" shown and three rings revealed |
| RingGame.RepeatedRingClickCounts | script.js:439-448 | three clicks on the same ring win with a single ring uncovered, and a fourth click counts 4 finds |
| Popups.Close | script.js:328-401 | closing a popup removes it from the open set and leaves every other popup as it was |
| Popups.OpenFirst | script.js:323-325 | the final screen's No opens popup 1 and nothing else |
| Popups.PressYes | script.js:328-370 | Yes on a popup closes that popup only |
| Popups.PressNo | script.js:378-401 | No on a popup closes that popup only |
| Popups.Successor | script.js:378-401 | No on popup k leads to popup k + 1, which is one of the five |
| Popups.Open | script.js:380-382 | the delayed opening adds exactly that popup |
| Popups.NoAdvances | script.js:378-401 | No on the one open popup k, followed by its delay, leaves exactly popup k + 1 open |
| Popups.WholeChain | script.js:320-401 | No on popups 1 to 4 shows popups 1 to 5 one at a time; Yes on popup 5 leaves none open, and popup 5 has no No |
| Sequencer.Step | script.js:213-573 | no event cancels a scheduled timeout: the pending queue only grows, except that an elapsing timeout leaves it |
| Sequencer.BeginSwitch | script.js:185-191 | the immediate half of `switchScreen` schedules the delayed switch after every pending callback and changes nothing else |
| Sequencer.OnHoldTick | script.js:133-142 | a progress tick updates the hold as `HoldTick` does and schedules the first quiz exactly when the tick completes the hold; nothing else changes |
| Sequencer.OnOptionClick | script.js:250-276 | an option click selects the option within its container, records its answer in the container's slot and schedules the navigation; nothing else changes |
| Sequencer.OnYesClick | script.js:463-466 | the final Yes starts a fresh game on the sampled positions, which are three distinct boxes, and schedules the switch to the game screen; nothing else changes |
| Sequencer.OnPopupNo | script.js:378-401 | No on popup k closes it at once and schedules the opening of popup k + 1; nothing else changes |
| Sequencer.OnBoxClick | script.js:438-453 | a box click is handled by the game; the click that makes the third find starts 80 animating particles, any other leaves the confetti alone; nothing else changes |
| Sequencer.ElapseRemovesOne | script.js:175-572 | an elapsing callback leaves the queue, the callbacks before and after it keep their order, and whatever it schedules goes after them |
| Sequencer.Run | script.js:175-572 | no scheduled callback cancels another: the queue it runs on is kept as a prefix of the result |
| Sequencer.OnElapse | script.js:175-572 | the elapsing callback leaves the queue before it runs: the queue loses at most that one entry, and the callbacks before and after it stay at the front in their order |
| Sequencer.StepPreserves | script.js:213-573 | every event keeps the page invariant: fill and reset width in [0, 100], the game consistent with three valid ring positions once started, popups and scheduled popup openings within 1..5, and every particle within bounds |
| Sequencer.HoldEventPreserves | script.js:127-165 | pressing, releasing and both intervals keep the fill and reset width within [0, 100] and leave the rest of the invariant intact |
| Sequencer.ClickEventPreserves | script.js:246-402 | quiz, popup and navigation clicks keep every open and scheduled popup within 1..5 and the rest of the invariant intact |
| Sequencer.ConfettiEventPreserves | script.js:482-573 | the clicks that start bursts and every animation frame keep every particle within the particle ranges and not below the canvas bottom |
| Sequencer.GameEventPreserves | script.js:414-461 | a fresh game on sampled positions and every box click keep the game consistent |
| Sequencer.ElapsePreserves | script.js:175-572 | a pending callback that elapses keeps the invariant |
| Sequencer.InitInvariant | script.js:18-42 | the freshly loaded page satisfies the invariant |
| Sequencer.RunPreserves | script.js:175-572 | every scheduled callback keeps the invariant when it runs |
| Sequencer.HoldGuards | script.js:127-147 | a press while holding and a release while not holding change nothing on the page |
| Sequencer.HoldCompletionShowsFirstQuiz | script.js:167-181 | the completing tick ends the hold and schedules the first quiz; when that runs, the initial screen is hidden, quizScreen1 is active, `currentScreen` is "quiz1" and 80 particles animate |
| Sequencer.QuizNavigation | script.js:250-289 | an option with a next screen records its answer; after the delay `currentScreen` is the derived name; after the fade the next screen alone is on view, and confetti is stopped exactly for the three listed targets |
| Sequencer.FirstQuizToSecond | script.js:266-279 | an option of quizScreen1 leading to quizScreen2 sets answer 1 only, and then `currentScreen` is "quiz2" |
| Sequencer.PopupNoAdvances | script.js:373-401 | on the page, No on the one open popup k closes it and schedules popup k + 1, which then is the one open popup; popup 5 offers no No |
| Sequencer.PopupYesCloses | script.js:328-370 | on the page, Yes on a popup closes it and changes nothing else |
| Sequencer.YesStartsGame | script.js:463-466 | the final Yes starts a fresh game on three distinct boxes; after the switch the game screen alone is on view and the confetti is untouched |
| Sequencer.BoxClickConfetti | script.js:448-453 | the click that makes the third find starts 80 animating particles; other clicks leave the confetti alone |
| Sequencer.OnValentineYes | script.js:549-573 | the valentine Yes hides the No button, leaves 80 particles animating on the same canvas, and schedules the switch to the success screen and the extra particles; screens, game, answers, popups and hold are unchanged |
| Sequencer.FinishSwitchScreens | script.js:192-209 | the delayed switch changes the screens as `switchScreen` does; the animation keeps running exactly when it ran and the target is not one of the three listed screens; the particles stay |
| Sequencer.AdvanceQuiz | script.js:276-289 | with a next screen the switch is scheduled and `currentScreen` is the derived name; without one the report is appended and nothing is scheduled |

## Left out

- DOM queries, fade animations, the `completed` button's animation and every `alert` text. These are presentation; only the quiz report's content is kept. Of the classes and styles the page sets, the model keeps the screens' `active` class and inline display, the options' `selected` class (`Quiz.Select`), the hold button's `completed` class (`Hold.completed`), the game's "next" button display (`Game.nextShown`), the game status visibility (`Game.statusVisible`) and the valentine No button's display (`App.noButtonHidden`); the rest, such as the fill width's CSS string and box styling, are left out.
- JsString.ReplaceFirst: inserts the replacement literally. JavaScript expands `$&`, `$$`, `` $` `` and `$'` in a replacement string; the page only replaces with the empty string, where the two agree.
- Real time. Timers are events, and the model lets pending timeouts elapse in any order rather than by their delays (the delays are noted on `Sequencer.Callback`). Two reset intervals overlapping after a quick press and release are reduced to one.
- Interval periods. Progress ticks (every 50 ms) and reset ticks (every 20 ms) are separate events that may interleave in any order, so the model admits interleavings the fixed periods rule out: a reset from a width of at most 100 ends within 20 ticks, about 400 ms, and completion needs 3000 ms of holding.
- The `requestAnimationFrame` loop. The animation is a single running flag; repeated `animateConfetti` calls stack loops in the source, and `stopConfetti` cancels only the latest.
- Drawing, particle colour and the rotation as drawn. The colour draw is consumed but not kept. The window resize handler is left out: the canvas size is fixed at load.
- `moveButton` and the random relocation of the popup No buttons. They are random layout only.
- `showQR`, the external QR code library, and the `recipientName` input listener.
- The game's "next" button alert listener. Its effect on the page is the screen switch, which is modelled.
- A missing `data-answer` attribute, for which the source would store `null`. A missing `data-next` and an empty one are both modelled as the empty string, since both are falsy.
- Floating-point rounding. Fill, positions and speeds are exact reals.
- RingGame.SampleRings: requires that the supplied draws contain three different boxes. The source loop draws forever until they appear, which happens with probability 1.
- Confetti.Frame: supplies one redraw value per particle, used only when the particle wraps; the source draws only for wrapping particles.

=== FILE: confetti.dfy ===
/** The confetti particles of script.js (class ConfettiParticle,
    createConfetti, animateConfetti, stopConfetti), without the drawing.
    Every `Math.random()` draw is an input value. */
module Confetti {

  /** Particles in one `createConfetti` batch. */
  const BatchSize: nat := 80
  /** Particles pushed by the delayed extra burst on the success screen. */
  const ExtraBatchSize: nat := 100
  /** The height a particle restarts at after falling off the canvas. */
  const WrapY: real := -10.0

  /** A particle's position, size, speeds and rotation; its colour only
      matters for drawing and is not kept. */
  datatype Particle = Particle(
    x: real, y: real, size: real,
    speedY: real, speedX: real,
    rotation: real, rotationSpeed: real)

  /** The eight `Math.random()` values the constructor draws, in its order;
      the colour draw is consumed but not used. */
  datatype ParticleDraw = ParticleDraw(
    x: real, y: real, size: real, speedY: real, speedX: real,
    color: real, rotation: real, rotationSpeed: real)

  predicate Unit(d: real) {
    0.0 <= d < 1.0
  }

  predicate UnitDraw(d: ParticleDraw) {
    Unit(d.x) && Unit(d.y) && Unit(d.size) && Unit(d.speedY) && Unit(d.speedX)
    && Unit(d.color) && Unit(d.rotation) && Unit(d.rotationSpeed)
  }

  /** The fixed attribute ranges of a constructed particle; they never change
      afterwards, since `update` leaves size and speeds alone. */
  predicate Shaped(p: Particle) {
    4.0 <= p.size < 12.0
    && 2.0 <= p.speedY < 5.0
    && -1.0 <= p.speedX < 1.0
    && -5.0 <= p.rotationSpeed < 5.0
  }

  /** A particle within the canvas's vertical bound. */
  predicate InBounds(p: Particle, height: real) {
    Shaped(p) && p.y <= height
  }

  /** `d * n` for a unit draw lies in [0, n). */
  lemma ScaleBounds(d: real, n: real)
    ensures Unit(d) && n > 0.0 ==> 0.0 <= d * n < n
  {
    assert n - d * n == (1.0 - d) * n;
  }

  /** `new ConfettiParticle()` on a canvas of the given size. */
  function NewParticle(width: real, height: real, d: ParticleDraw): (p: Particle)
    ensures UnitDraw(d) ==> Shaped(p)
    ensures UnitDraw(d) ==> 0.0 <= p.rotation < 360.0
    ensures UnitDraw(d) && width > 0.0 ==> 0.0 <= p.x < width
    ensures UnitDraw(d) && height > 0.0 ==> -height <= p.y < 0.0
    ensures UnitDraw(d) && height >= 0.0 ==> InBounds(p, height)
  {
    ScaleBounds(d.x, width);
    ScaleBounds(d.y, height);
    Particle(
      d.x * width,
      d.y * height - height,
      d.size * 8.0 + 4.0,
      d.speedY * 3.0 + 2.0,
      d.speedX * 2.0 - 1.0,
      d.rotation * 360.0,
      d.rotationSpeed * 10.0 - 5.0)
  }

  /** `update()`: the particle moves by its speeds and turns by its rotation
      speed; once below the canvas bottom it restarts at height -10 with a
      freshly drawn horizontal position. */
  function Update(p: Particle, width: real, height: real, redraw: real): (r: Particle)
    ensures p.y + p.speedY > height ==> r.y == WrapY
    ensures p.y + p.speedY > height && Unit(redraw) && width > 0.0 ==> 0.0 <= r.x < width
    ensures p.y + p.speedY <= height ==> r.y == p.y + p.speedY && r.x == p.x + p.speedX
    ensures r.rotation == p.rotation + p.rotationSpeed
    ensures r.size == p.size && r.speedY == p.speedY && r.speedX == p.speedX
    ensures r.rotationSpeed == p.rotationSpeed
  {
    var moved := p.(y := p.y + p.speedY, x := p.x + p.speedX,
                    rotation := p.rotation + p.rotationSpeed);
    if moved.y > height then
      ScaleBounds(redraw, width);
      moved.(y := WrapY, x := redraw * width)
    else moved
  }

  /** An update keeps a particle's ranges and leaves it no lower than the
      canvas bottom. */
  lemma UpdateStaysInBounds(p: Particle, width: real, height: real, redraw: real)
    requires InBounds(p, height) && height >= 0.0
    ensures InBounds(Update(p, width, height, redraw), height)
  {
  }

  /** A particle already below the canvas bottom is above the canvas top
      after one frame. */
  lemma UpdateWrapsFallen(p: Particle, width: real, height: real, redraw: real)
    requires p.y > height && p.speedY >= 0.0
    ensures Update(p, width, height, redraw).y < 0.0
  {
  }

  /** `n` new particles, the i-th built from draw `ds[i]`. */
  function Spawn(n: nat, width: real, height: real, ds: seq<ParticleDraw>): (ps: seq<Particle>)
    requires n <= |ds|
    ensures |ps| == n
    ensures forall i :: 0 <= i < n ==> ps[i] == NewParticle(width, height, ds[i])
  {
    if n == 0 then [] else Spawn(n - 1, width, height, ds) + [NewParticle(width, height, ds[n - 1])]
  }

  /** `createConfetti()`: the collection is replaced by one batch of 80 new
      particles; with unit draws each starts above the canvas, within its
      width, and in bounds. */
  function CreateConfetti(width: real, height: real, ds: seq<ParticleDraw>): (ps: seq<Particle>)
    requires BatchSize <= |ds|
    ensures |ps| == 80
    ensures forall i :: 0 <= i < 80 && UnitDraw(ds[i]) && width > 0.0 && height > 0.0 ==>
              0.0 <= ps[i].x < width && -height <= ps[i].y < 0.0
    ensures forall i :: 0 <= i < 80 && UnitDraw(ds[i]) && height >= 0.0 ==> InBounds(ps[i], height)
  {
    Spawn(BatchSize, width, height, ds)
  }

  /** One animation frame: every particle is updated, the i-th with redraw
      value `redraws[i]` (drawn only if it wraps). */
  function Frame(ps: seq<Particle>, width: real, height: real, redraws: seq<real>): (r: seq<Particle>)
    requires |ps| <= |redraws|
    ensures |r| == |ps|
    ensures forall i :: 0 <= i < |ps| ==> r[i] == Update(ps[i], width, height, redraws[i])
  {
    seq(|ps|, i requires 0 <= i < |ps| => Update(ps[i], width, height, redraws[i]))
  }

  /** All particles of a collection within bounds. */
  predicate AllInBounds(ps: seq<Particle>, height: real) {
    forall i :: 0 <= i < |ps| ==> InBounds(ps[i], height)
  }

  /** A frame keeps every particle in bounds. */
  lemma FrameStaysInBounds(ps: seq<Particle>, width: real, height: real, redraws: seq<real>)
    requires |ps| <= |redraws|
    ensures height >= 0.0 && AllInBounds(ps, height) ==>
              AllInBounds(Frame(ps, width, height, redraws), height)
  {
    if height >= 0.0 && AllInBounds(ps, height) {
      forall i | 0 <= i < |ps|
        ensures InBounds(Frame(ps, width, height, redraws)[i], height)
      {
        UpdateStaysInBounds(ps[i], width, height, redraws[i]);
      }
    }
  }

  /** The canvas size, the particle collection, and whether an animation
      frame is pending (`confettiAnimationId` set). */
  datatype Animator = Animator(width: real, height: real, running: bool, particles: seq<Particle>)

  /** The random input of one `createConfetti(); animateConfetti();` pair. */
  datatype Burst = Burst(spawn: seq<ParticleDraw>, redraws: seq<real>)

  predicate ValidBurst(b: Burst) {
    |b.spawn| >= BatchSize && |b.redraws| >= BatchSize
    && (forall i :: 0 <= i < |b.spawn| ==> UnitDraw(b.spawn[i]))
    && (forall i :: 0 <= i < |b.redraws| ==> Unit(b.redraws[i]))
  }

  /** `animateConfetti()`: one frame runs at once and the next is requested. */
  function Animate(a: Animator, redraws: seq<real>): (r: Animator)
    requires |a.particles| <= |redraws|
    ensures r.running && |r.particles| == |a.particles|
    ensures r.width == a.width && r.height == a.height
    ensures r.particles == Frame(a.particles, a.width, a.height, redraws)
  {
    a.(running := true, particles := Frame(a.particles, a.width, a.height, redraws))
  }

  /** `createConfetti(); animateConfetti();`: a fresh batch of 80, moved by
      one frame, with the animation running. */
  function StartBurst(a: Animator, b: Burst): (r: Animator)
    requires ValidBurst(b)
    ensures r.running && |r.particles| == 80
    ensures r.width == a.width && r.height == a.height
    ensures a.height >= 0.0 ==> AllInBounds(r.particles, r.height)
  {
    var created := a.(particles := CreateConfetti(a.width, a.height, b.spawn));
    FrameStaysInBounds(created.particles, a.width, a.height, b.redraws);
    Animate(created, b.redraws)
  }

  /** A pending animation frame arrives: the particles advance if the
      animation is running; otherwise nothing happens. */
  function Tick(a: Animator, redraws: seq<real>): (r: Animator)
    requires |a.particles| <= |redraws|
    ensures !a.running ==> r == a
    ensures a.running ==> r.running && r.particles == Frame(a.particles, a.width, a.height, redraws)
    ensures |r.particles| == |a.particles| && r.width == a.width && r.height == a.height
    ensures a.height >= 0.0 && AllInBounds(a.particles, a.height) ==> AllInBounds(r.particles, r.height)
  {
    FrameStaysInBounds(a.particles, a.width, a.height, redraws);
    if a.running then Animate(a, redraws) else a
  }

  /** `stopConfetti()`: the animation stops; the particles are kept (the
      canvas is cleared, which is not modelled). */
  function Stop(a: Animator): (r: Animator)
    ensures !r.running
    ensures r.particles == a.particles && r.width == a.width && r.height == a.height
  {
    a.(running := false)
  }

  /** The delayed extra burst: 100 new particles join the collection. */
  function AddExtra(a: Animator, ds: seq<ParticleDraw>): (r: Animator)
    requires ExtraBatchSize <= |ds|
    ensures |r.particles| == |a.particles| + 100
    ensures r.particles[..|a.particles|] == a.particles
    ensures forall i :: 0 <= i < ExtraBatchSize ==>
              r.particles[|a.particles| + i] == NewParticle(a.width, a.height, ds[i])
    ensures r.running == a.running && r.width == a.width && r.height == a.height
    ensures ((forall i :: 0 <= i < ExtraBatchSize ==> UnitDraw(ds[i])) && a.height >= 0.0
              && AllInBounds(a.particles, a.height)) ==> AllInBounds(r.particles, r.height)
  {
    a.(particles := a.particles + Spawn(ExtraBatchSize, a.width, a.height, ds))
  }
}

=== FILE: hold.dfy ===
/** The hold-to-confirm button (script.js startHold / stopHold / completeHold).
    Timers are discrete events: a `HoldTick` is one firing of the 50 ms
    interval, a `ResetTick` one firing of the 20 ms fill-reset interval. */
module HoldGesture {

  /** Milliseconds the button has to be held. */
  const HoldDuration: int := 3000
  /** Percentage points removed from the fill per reset tick. */
  const ResetStep: real := 5.0

  /** State of the gesture.
      - holding: `isHolding` (the progress interval runs exactly while it is set)
      - startTime: `startTime`, the clock reading when the press began
      - fill: the fill indicator's width, in percent
      - resetting: whether a fill-reset interval is running
      - resetWidth: the reset interval's private `width` counter
      - completed: whether the button carries the `completed` class */
  datatype Hold = Hold(
    holding: bool,
    startTime: int,
    fill: real,
    resetting: bool,
    resetWidth: real,
    completed: bool)

  const Initial: Hold := Hold(false, 0, 0.0, false, 0.0, false)

  /** The fill after `elapsed` milliseconds of holding: the elapsed share of
      the hold duration in percent, capped at 100. */
  function Progress(elapsed: int): (p: real)
    ensures elapsed >= 0 ==> 0.0 <= p
    ensures p <= 100.0
    ensures p == 100.0 <==> elapsed >= HoldDuration
    ensures elapsed < HoldDuration ==> p * (HoldDuration as real) == elapsed as real * 100.0
  {
    var q := elapsed as real / HoldDuration as real * 100.0;
    if q < 100.0 then q else 100.0
  }

  /** Progress never decreases as time goes on. */
  lemma ProgressMonotone(a: int, b: int)
    requires a <= b
    ensures Progress(a) <= Progress(b)
  {
  }

  /** Pressing the button: ignored while a hold is in progress, otherwise
      the hold starts at `now`. */
  function StartHold(h: Hold, now: int): (r: Hold)
    ensures h.holding ==> r == h
    ensures !h.holding ==> r.holding && r.startTime == now
    ensures r.fill == h.fill && r.resetting == h.resetting && r.resetWidth == h.resetWidth
    ensures r.completed == h.completed
  {
    if h.holding then h else h.(holding := true, startTime := now)
  }

  /** Completing the hold: the progress interval stops, `isHolding` is
      cleared and the button is marked completed. */
  function CompleteHold(h: Hold): (r: Hold)
    ensures !r.holding && r.completed
    ensures r.fill == h.fill && r.resetting == h.resetting && r.resetWidth == h.resetWidth
  {
    h.(holding := false, completed := true)
  }

  /** What one firing of the progress interval produces: the new state and
      whether this firing completed the hold. */
  datatype TickResult = TickResult(hold: Hold, completedNow: bool)

  /** One firing of the 50 ms progress interval at clock reading `now`.
      There is no interval while the button is not held, so the tick is
      then without effect. */
  function HoldTick(h: Hold, now: int): (r: TickResult)
    ensures !h.holding ==> r.hold == h && !r.completedNow
    ensures h.holding ==> r.hold.fill == Progress(now - h.startTime)
    ensures h.holding && now >= h.startTime ==> 0.0 <= r.hold.fill <= 100.0
    ensures r.completedNow <==> h.holding && now - h.startTime >= HoldDuration
    ensures r.completedNow ==> !r.hold.holding && r.hold.completed && r.hold.fill == 100.0
    ensures !r.completedNow ==> r.hold.holding == h.holding && r.hold.completed == h.completed
    ensures r.hold.startTime == h.startTime && r.hold.resetting == h.resetting
    ensures r.hold.resetWidth == h.resetWidth
  {
    if !h.holding then TickResult(h, false)
    else
      var progress := Progress(now - h.startTime);
      var h1 := h.(fill := progress);
      if progress >= 100.0 then TickResult(CompleteHold(h1), true)
      else TickResult(h1, false)
  }

  /** While held, the fill grows with time: a later tick never shows less
      than an earlier one. */
  lemma TickFillMonotone(h: Hold, now1: int, now2: int)
    requires h.holding && now1 <= now2
    requires !HoldTick(h, now1).completedNow
    ensures HoldTick(HoldTick(h, now1).hold, now2).hold.fill >= HoldTick(h, now1).hold.fill
  {
    ProgressMonotone(now1 - h.startTime, now2 - h.startTime);
  }

  /** Completion happens once: after the completing tick no further tick
      changes anything until the button is pressed again. */
  lemma CompletionIsFinal(h: Hold, now: int, later: int)
    requires HoldTick(h, now).completedNow
    ensures HoldTick(HoldTick(h, now).hold, later) == TickResult(HoldTick(h, now).hold, false)
  {
  }

  /** Releasing the button: ignored when no hold is in progress; otherwise
      the hold ends and a reset interval starts from the current fill. */
  function StopHold(h: Hold): (r: Hold)
    ensures !h.holding ==> r == h
    ensures h.holding ==> !r.holding && r.resetting && r.resetWidth == h.fill
    ensures r.fill == h.fill && r.startTime == h.startTime && r.completed == h.completed
  {
    if !h.holding then h
    else h.(holding := false, resetting := true, resetWidth := h.fill)
  }

  /** One firing of the 20 ms reset interval: the width drops by 5 and is
      written to the fill; once it reaches 0 or below it is pinned to 0 and
      the interval stops. */
  function ResetTick(h: Hold): (r: Hold)
    ensures !h.resetting ==> r == h
    ensures h.resetting && h.resetWidth - ResetStep > 0.0 ==>
              r.resetting && r.resetWidth == h.resetWidth - ResetStep && r.fill == r.resetWidth
    ensures h.resetting && h.resetWidth - ResetStep <= 0.0 ==>
              !r.resetting && r.resetWidth == 0.0 && r.fill == 0.0
    ensures r.holding == h.holding && r.startTime == h.startTime && r.completed == h.completed
    ensures 0.0 <= h.resetWidth ==> 0.0 <= r.resetWidth <= h.resetWidth
  {
    if !h.resetting then h
    else
      var width := h.resetWidth - ResetStep;
      if width <= 0.0 then h.(resetWidth := 0.0, fill := 0.0, resetting := false)
      else h.(resetWidth := width, fill := width)
  }

  /** Runs the reset interval from its start to the tick that clears it and
      returns the widths it writes, one per tick. Every width but the last is
      the start width less 5 per tick so far and is positive; the last is 0,
      and it comes exactly at the first tick that would reach 0 or below. */
  method RunReset(h: Hold) returns (r: Hold, trace: seq<real>)
    requires h.resetting
    ensures !r.resetting && r.fill == 0.0 && r.resetWidth == 0.0
    ensures r.holding == h.holding && r.startTime == h.startTime && r.completed == h.completed
    ensures |trace| >= 1 && trace[|trace| - 1] == 0.0
    ensures forall i :: 0 <= i < |trace| - 1 ==>
              trace[i] == h.resetWidth - ResetStep * (i + 1) as real && trace[i] > 0.0
    ensures h.resetWidth - ResetStep * |trace| as real <= 0.0
    ensures forall i :: 0 <= i < |trace| ==> trace[i] >= 0.0
  {
    r := h;
    trace := [];
    while r.resetting
      invariant r.holding == h.holding && r.startTime == h.startTime && r.completed == h.completed
      invariant r.resetting ==> r.resetWidth == h.resetWidth - ResetStep * |trace| as real
      invariant r.resetting && |trace| > 0 ==> r.resetWidth > 0.0
      invariant !r.resetting ==> |trace| >= 1 && trace[|trace| - 1] == 0.0
      invariant !r.resetting ==> r.fill == 0.0 && r.resetWidth == 0.0
      invariant !r.resetting ==> h.resetWidth - ResetStep * |trace| as real <= 0.0
      invariant forall i :: 0 <= i < |trace| && (r.resetting || i < |trace| - 1) ==>
                  trace[i] == h.resetWidth - ResetStep * (i + 1) as real && trace[i] > 0.0
      invariant forall i :: 0 <= i < |trace| ==> trace[i] >= 0.0
      decreases if r.resetting then (if r.resetWidth <= 0.0 then 1 else r.resetWidth.Floor + 2) else 0
    {
      r := ResetTick(r);
      trace := trace + [r.fill];
    }
  }
  /** The reset interval is a local of `stopHold`, so nothing cancels it: a
      press during a reset does not stop it. A hold released at 2405 ms with
      the fill at 80 % and pressed again at 2410 ms meets the reset ticks of
      2425, 2445 and 2465 ms and the first progress tick of 2460 ms, so while
      the button is held the fill shows 75, 70, 5/3 and 65. */
  lemma ResetRunsDuringHold()
    ensures var h1 := StartHold(Initial, 0);
      var h2 := HoldTick(h1, 2400).hold;
      var h3 := StopHold(h2);
      var h4 := StartHold(h3, 2410);
      var h5 := ResetTick(h4);
      var h6 := ResetTick(h5);
      var h7 := HoldTick(h6, 2460).hold;
      var h8 := ResetTick(h7);
      && h2.fill == 80.0 && h4.holding && h4.resetting && h4.fill == 80.0
      && h5.holding && h5.fill == 75.0
      && h6.holding && h6.fill == 70.0
      && h7.holding && h7.fill == 5.0 / 3.0
      && h8.holding && h8.resetting && h8.fill == 65.0
  {
  }

  /** `completeHold` leaves the button on screen for 500 ms before the
      switch. A press in that window starts a new hold, since only
      `isHolding` guards `startHold`; a release before its first progress
      tick starts a reset from the full width, so the completed button's
      fill drops to 95. */
  lemma ResetAfterCompletion(h: Hold, now: int, t: int)
    requires HoldTick(h, now).completedNow
    ensures var c := HoldTick(h, now).hold;
      var r := ResetTick(StopHold(StartHold(c, t)));
      r.completed && !r.holding && r.resetting && r.fill == 95.0
  {
  }

  /** In general, a reset tick while the button is held keeps the hold and
      overwrites the fill with the reset width, whatever progress it
      showed. */
  lemma ResetTickWhileHeld(h: Hold)
    requires h.holding && h.resetting && h.resetWidth > ResetStep
    ensures ResetTick(h).holding && ResetTick(h).fill == h.resetWidth - ResetStep
    ensures ResetTick(h).resetting
  {
  }
}

=== FILE: jsstring.dfy ===
/** The two JavaScript string operations the page relies on:
    `String.prototype.indexOf` and `String.prototype.replace` with a string
    pattern and a `$`-free replacement, which replaces only the FIRST
    occurrence. */
module JsString {

  /** `pat` occurs in `s` starting at index `k`. */
  predicate OccursAt(s: string, pat: string, k: int) {
    0 <= k && k + |pat| <= |s| && s[k..k + |pat|] == pat
  }

  /** The first occurrence of `pat` in `s` at or after `from`, or -1. */
  function IndexFrom(s: string, pat: string, from: nat): (i: int)
    requires from <= |s|
    decreases |s| - from
    ensures i == -1 || (from <= i && OccursAt(s, pat, i))
    ensures i == -1 ==> forall k :: from <= k ==> !OccursAt(s, pat, k)
    ensures i != -1 ==> forall k :: from <= k < i ==> !OccursAt(s, pat, k)
  {
    if OccursAt(s, pat, from) then from
    else if from == |s| then -1
    else IndexFrom(s, pat, from + 1)
  }

  /** `s.indexOf(pat)`: the index of the first occurrence, or -1 when there
      is none. */
  function IndexOf(s: string, pat: string): (i: int)
    ensures i == -1 || OccursAt(s, pat, i)
    ensures i == -1 <==> forall k :: !OccursAt(s, pat, k)
    ensures i != -1 ==> forall k :: 0 <= k < i ==> !OccursAt(s, pat, k)
  {
    IndexFrom(s, pat, 0)
  }

  /** `s.replace(pat, rep)` for a string `pat` and a replacement `rep`
      holding no `$` (JavaScript expands `$` patterns in `rep`, which are
      not modelled): the first occurrence is replaced and the rest of `s`
      is kept; without an occurrence `s` is returned unchanged. */
  function ReplaceFirst(s: string, pat: string, rep: string): (r: string)
    ensures IndexOf(s, pat) == -1 ==> r == s
    ensures IndexOf(s, pat) != -1 ==> |r| == |s| - |pat| + |rep|
  {
    var i := IndexOf(s, pat);
    if i == -1 then s else s[..i] + rep + s[i + |pat|..]
  }

  /** Splitting at the first occurrence: when `pat` does not start anywhere
      inside `a`, replacing in `a + pat + b` gives `a + rep + b`. */
  lemma ReplaceFirstSplit(a: string, pat: string, b: string, rep: string)
    requires forall k :: 0 <= k < |a| ==> !OccursAt(a + pat + b, pat, k)
    ensures ReplaceFirst(a + pat + b, pat, rep) == a + rep + b
  {
    var s := a + pat + b;
    assert OccursAt(s, pat, |a|) by {
      assert s[|a|..|a| + |pat|] == pat;
    }
    var i := IndexOf(s, pat);
    assert i == |a|;
    assert s[..i] == a;
    assert s[i + |pat|..] == b;
  }

  /** Only the first occurrence goes: later occurrences survive. */
  lemma ReplaceFirstKeepsLater(pat: string)
    requires |pat| > 0
    ensures ReplaceFirst(pat + pat, pat, "") == pat
  {
    assert forall k :: 0 <= k < 0 ==> !OccursAt("" + pat + pat, pat, k);
    ReplaceFirstSplit("", pat, pat, "");
    assert "" + pat + pat == pat + pat;
  }
}

=== FILE: popups.dfy ===
/** The "Nahi" popup chain of script.js: five popups over the final screen,
    numbered 1..5. Popups 1..4 have a Yes and a No button, popup 5 only a
    Yes button. The set of popups carrying the `active` class is the state. */
module Popups {

  const PopupCount: int := 5

  /** Popups whose element exists in the chain. */
  predicate IsPopup(k: int) {
    1 <= k <= PopupCount
  }

  /** Popups with a No button: all but the last. */
  predicate HasNoButton(k: int) {
    1 <= k < PopupCount
  }

  /** The opening of popup `k`: it gains the `active` class. */
  function Open(active: set<int>, k: int): (r: set<int>)
    ensures k in r && forall j :: j != k ==> (j in r <==> j in active)
  {
    active + {k}
  }

  /** The closing of popup `k`: it loses the `active` class. */
  function Close(active: set<int>, k: int): (r: set<int>)
    ensures k !in r && forall j :: j != k ==> (j in r <==> j in active)
  {
    active - {k}
  }

  /** The final screen's No button opens the first popup. */
  function OpenFirst(active: set<int>): (r: set<int>)
    ensures 1 in r && forall k :: k != 1 ==> (k in r <==> k in active)
  {
    Open(active, 1)
  }

  /** Yes on popup `k` closes it and nothing else. Every popup has one. */
  function PressYes(active: set<int>, k: int): (r: set<int>)
    requires IsPopup(k)
    ensures k !in r && forall j :: j != k ==> (j in r <==> j in active)
  {
    Close(active, k)
  }

  /** No on popup `k` closes it at once; the popup it leads to opens after
      a delay (see `Successor`). Only popups 1..4 have one. */
  function PressNo(active: set<int>, k: int): (r: set<int>)
    requires HasNoButton(k)
    ensures k !in r && forall j :: j != k ==> (j in r <==> j in active)
  {
    Close(active, k)
  }

  /** The popup that No on popup `k` opens. */
  function Successor(k: int): (n: int)
    requires HasNoButton(k)
    ensures IsPopup(n) && n == k + 1 && n > 1
  {
    k + 1
  }

  /** No on the one open popup `k`, followed by the delay, leaves exactly
      its successor open. */
  lemma NoAdvances(k: int)
    requires HasNoButton(k)
    ensures PressNo({k}, k) == {}
    ensures Open(PressNo({k}, k), Successor(k)) == {k + 1}
  {
  }

  /** The whole chain: No on popups 1 to 4, each followed by its delay,
      shows popups 1, 2, 3, 4, 5 one at a time; Yes on popup 5 leaves none
      open. */
  lemma WholeChain()
    ensures var s1 := OpenFirst({});
      var s2 := Open(PressNo(s1, 1), Successor(1));
      var s3 := Open(PressNo(s2, 2), Successor(2));
      var s4 := Open(PressNo(s3, 3), Successor(3));
      var s5 := Open(PressNo(s4, 4), Successor(4));
      && s1 == {1} && s2 == {2} && s3 == {3} && s4 == {4} && s5 == {5}
      && PressYes(s5, 5) == {}
      && !HasNoButton(5)
  {
    NoAdvances(1);
    NoAdvances(2);
    NoAdvances(3);
    NoAdvances(4);
  }
}

=== FILE: quiz.dfy ===
/** The quiz option handler of script.js `setupQuizButtons`: selection within
    a quiz container, the answer slot the container selects, the screen name
    derived from the option's `data-next`, and the end-of-quiz report. */
module Quiz {
  import opened JsString

  /** The three recorded answers (`answers.question1..3`). */
  datatype Answers = Answers(question1: string, question2: string, question3: string)

  const NoAnswers: Answers := Answers("", "", "")

  /** The answer slot a quiz container writes: 1, 2 or 3, and 0 for a
      container that writes none. */
  function SlotFor(container: string): (slot: nat)
    ensures slot <= 3
    ensures slot == 1 <==> container == "quizScreen1"
    ensures slot == 2 <==> container == "quizScreen2"
    ensures slot == 3 <==> container == "quizScreen3"
  {
    if container == "quizScreen1" then 1
    else if container == "quizScreen2" then 2
    else if container == "quizScreen3" then 3
    else 0
  }

  /** Each slot belongs to exactly one container. */
  lemma SlotForInjective(c1: string, c2: string)
    requires SlotFor(c1) == SlotFor(c2) != 0
    ensures c1 == c2
  {
  }

  /** Slot `k` (1..3) of `a`. */
  function Slot(a: Answers, k: nat): string
    requires 1 <= k <= 3
  {
    if k == 1 then a.question1 else if k == 2 then a.question2 else a.question3
  }

  /** Storing `answer` for a click inside `container`: exactly the slot of
      that container takes the answer, the other slots keep theirs, and a
      container with no slot changes nothing. */
  function RecordAnswer(a: Answers, container: string, answer: string): (r: Answers)
    ensures forall k :: 1 <= k <= 3 ==>
              Slot(r, k) == (if k == SlotFor(container) then answer else Slot(a, k))
    ensures SlotFor(container) == 0 ==> r == a
  {
    match SlotFor(container)
    case 1 => a.(question1 := answer)
    case 2 => a.(question2 := answer)
    case 3 => a.(question3 := answer)
    case _ => a
  }

  /** Selected option buttons, as (container id, option number) pairs. */
  type Selection = set<(string, nat)>

  /** Clicking option `option` in `container`: it becomes the only selected
      option of that container; selections in other containers stay. */
  function Select(sel: Selection, container: string, option: nat): (r: Selection)
    ensures forall o :: (container, o) in r <==> o == option
    ensures forall c, o :: c != container ==> ((c, o) in r <==> (c, o) in sel)
  {
    (set p | p in sel && p.0 != container) + {(container, option)}
  }

  /** `currentScreen` after navigating to `next`: `next` with its first
      "Screen" removed. */
  function ScreenName(next: string): string
  {
    ReplaceFirst(next, "Screen", "")
  }

  /** "Screen" cannot start at a character other than 'S'. */
  lemma NoScreenAt(s: string, k: nat)
    requires k < |s| && s[k] != 'S'
    ensures !OccursAt(s, "Screen", k)
  {
  }

  /** For an id of the page's form `<name>Screen<suffix>`, whose name holds
      no capital S, the derived screen name is `<name><suffix>`. */
  lemma ScreenNameStrips(name: string, suffix: string)
    requires forall k :: 0 <= k < |name| ==> name[k] != 'S'
    ensures ScreenName(name + "Screen" + suffix) == name + suffix
  {
    var s := name + "Screen" + suffix;
    forall k | 0 <= k < |name|
      ensures !OccursAt(s, "Screen", k)
    {
      assert s[k] == name[k];
      NoScreenAt(s, k);
    }
    ReplaceFirstSplit(name, "Screen", suffix, "");
  }

  /** The navigation from the first quiz screen to the second: the id
      "quizScreen2" gives the name "quiz2". */
  lemma ScreenNameQuiz2()
    ensures ScreenName("quizScreen2") == "quiz2"
  {
    var name, suffix := "quiz", "2";
    assert name + "Screen" + suffix == "quizScreen2";
    assert name + suffix == "quiz2";
    ScreenNameStrips(name, suffix);
  }

  /** The end-of-quiz report: the first two recorded answers and, as third,
      the answer of the option just clicked (not the recorded third slot). */
  function Report(a: Answers, answer: string): (r: Answers)
    ensures r.question1 == a.question1 && r.question2 == a.question2
    ensures r.question3 == answer
  {
    Answers(a.question1, a.question2, answer)
  }

  /** When the last option is clicked in the third quiz screen, the report
      is exactly the recorded answers. */
  lemma ReportOfThirdQuestion(a: Answers, answer: string)
    ensures Report(RecordAnswer(a, "quizScreen3", answer), answer)
              == RecordAnswer(a, "quizScreen3", answer)
  {
    assert Slot(RecordAnswer(a, "quizScreen3", answer), 3) == answer;
  }
}

=== FILE: ringgame.dfy ===
/** The ring-finding minigame of script.js (initGame, handleBoxClick): nine
    gift boxes, three of which hide a ring. */
module RingGame {

  const GridSize: int := 9
  const RingCount: int := 3

  /** What a box shows: the closed gift, a found ring, or a wrong guess. */
  datatype Box = Gift | Ring | Miss

  /** - ringsFound: the counter `ringsFound`
      - ringPositions: the winning box indices, in the order drawn
      - boxes: the grid's boxes (empty until the first `initGame`)
      - nextShown: whether the "next" button is displayed
      - statusVisible: whether the "wrong guess" status is visible */
  datatype Game = Game(
    ringsFound: int,
    ringPositions: seq<int>,
    boxes: seq<Box>,
    nextShown: bool,
    statusVisible: bool)

  /** The state before the game screen is first entered. */
  const Unplayed: Game := Game(0, [], [], false, false)

  /** `Math.floor(d * 9)`: the box a random draw `d` picks. */
  function CellOf(d: real): (c: int)
    ensures 0.0 <= d < 1.0 ==> 0 <= c < GridSize
  {
    (d * 9.0).Floor
  }

  predicate UnitDraws(ds: seq<real>) {
    forall i :: 0 <= i < |ds| ==> 0.0 <= ds[i] < 1.0
  }

  predicate Distinct(s: seq<int>) {
    forall a, b :: 0 <= a < b < |s| ==> s[a] != s[b]
  }

  /** Valid ring positions: three distinct box indices. */
  predicate ValidPositions(s: seq<int>) {
    |s| == RingCount && Distinct(s) && forall a :: 0 <= a < |s| ==> 0 <= s[a] < GridSize
  }

  /** The draws pick at least three different boxes, so rejection sampling
      over them ends. */
  predicate ThreeDistinctCells(ds: seq<real>) {
    exists i, j, k :: 0 <= i < j < k < |ds|
      && CellOf(ds[i]) != CellOf(ds[j]) && CellOf(ds[i]) != CellOf(ds[k])
      && CellOf(ds[j]) != CellOf(ds[k])
  }

  /** Reference definition of the sampling: the draws from index `n` on
      are taken in order, a box is kept when it is new, and drawing stops at
      three boxes. */
  function PickFrom(ds: seq<real>, n: nat, acc: seq<int>): seq<int>
    requires n <= |ds|
    decreases |ds| - n
  {
    if |acc| >= RingCount || n == |ds| then acc
    else
      var c := CellOf(ds[n]);
      PickFrom(ds, n + 1, if c in acc then acc else acc + [c])
  }

  /** One draw of the sampling: while fewer than three boxes are kept and
      draws remain, the next draw is taken and kept when new. */
  lemma PickFromStep(ds: seq<real>, n: nat, acc: seq<int>)
    requires n < |ds| && |acc| < RingCount
    ensures var c := CellOf(ds[n]);
      PickFrom(ds, n, acc) == PickFrom(ds, n + 1, if c in acc then acc else acc + [c])
  {
  }

  /** The positions sampling draws from the whole supply. */
  function Pick(ds: seq<real>): seq<int> {
    PickFrom(ds, 0, [])
  }

  /** What sampling keeps: the boxes already collected, then new distinct
      in-range boxes, never more than three. */
  lemma {:induction false} PickExtends(ds: seq<real>, n: nat, acc: seq<int>)
    requires n <= |ds| && UnitDraws(ds) && Distinct(acc) && |acc| <= RingCount
    requires forall a :: 0 <= a < |acc| ==> 0 <= acc[a] < GridSize
    ensures var r := PickFrom(ds, n, acc);
      && |r| <= RingCount && Distinct(r) && acc <= r
      && (forall a :: 0 <= a < |r| ==> 0 <= r[a] < GridSize)
    decreases |ds| - n
  {
    if |acc| < RingCount && n < |ds| {
      var c := CellOf(ds[n]);
      var acc' := if c in acc then acc else acc + [c];
      assert Distinct(acc') && acc <= acc';
      PickExtends(ds, n + 1, acc');
    }
  }

  /** When sampling ends with fewer than three boxes, every box drawn from
      index `n` on is among them. */
  lemma {:induction false} PickCovers(ds: seq<real>, n: nat, acc: seq<int>)
    requires n <= |ds|
    ensures var r := PickFrom(ds, n, acc);
      |r| < RingCount ==> acc <= r && forall m :: n <= m < |ds| ==> CellOf(ds[m]) in r
    decreases |ds| - n
  {
    if |acc| < RingCount && n < |ds| {
      var c := CellOf(ds[n]);
      var acc' := if c in acc then acc else acc + [c];
      PickCovers(ds, n + 1, acc');
      var r := PickFrom(ds, n, acc);
      if |r| < RingCount {
        assert c in acc' && acc' <= r;
      }
    }
  }

  /** A distinct sequence of at most three holding three different values
      has exactly three elements. */
  lemma ThreeValuesFill(r: seq<int>, x: int, y: int, z: int)
    requires Distinct(r) && |r| <= RingCount
    requires x in r && y in r && z in r && x != y && x != z && y != z
    ensures |r| == RingCount
  {
  }

  /** When the draws pick three different boxes, sampling yields valid ring
      positions. */
  lemma PickValid(ds: seq<real>)
    requires UnitDraws(ds) && ThreeDistinctCells(ds)
    ensures ValidPositions(Pick(ds))
  {
    PickExtends(ds, 0, []);
    PickCovers(ds, 0, []);
    var r := Pick(ds);
    var i, j, k :| 0 <= i < j < k < |ds|
      && CellOf(ds[i]) != CellOf(ds[j]) && CellOf(ds[i]) != CellOf(ds[k])
      && CellOf(ds[j]) != CellOf(ds[k]);
    if |r| < RingCount {
      ThreeValuesFill(r, CellOf(ds[i]), CellOf(ds[j]), CellOf(ds[k]));
    }
  }

  /** What holds after `used` draws of the sampling loop: the rest of the
      sampling from here yields `Pick(ds)`, every box drawn so far is kept,
      and a third box, once kept, came from the latest draw. */
  predicate Sampled(ds: seq<real>, used: nat, positions: seq<int>) {
    && used <= |ds|
    && PickFrom(ds, used, positions) == Pick(ds)
    && (forall m :: 0 <= m < used ==> CellOf(ds[m]) in positions)
    && (|positions| > 0 ==> used > 0)
    && (|positions| == RingCount ==> CellOf(ds[used - 1]) == positions[RingCount - 1])
  }

  /** Before the first draw nothing is kept. */
  lemma SampledStart(ds: seq<real>)
    ensures Sampled(ds, 0, [])
  {
  }

  /** One iteration of the sampling loop keeps `Sampled`. */
  lemma SampledStep(ds: seq<real>, used: nat, positions: seq<int>)
    requires Sampled(ds, used, positions) && used < |ds| && |positions| < RingCount
    ensures var c := CellOf(ds[used]);
      Sampled(ds, used + 1, if c in positions then positions else positions + [c])
  {
    var c := CellOf(ds[used]);
    var next := if c in positions then positions else positions + [c];
    PickFromStep(ds, used, positions);
    assert forall x :: x in positions ==> x in next;
  }

  /** When the sampling loop stops, its positions are valid and are those
      of `Pick`. */
  lemma SampledDone(ds: seq<real>, used: nat, positions: seq<int>)
    requires UnitDraws(ds) && ThreeDistinctCells(ds)
    requires Sampled(ds, used, positions) && (|positions| >= RingCount || used == |ds|)
    ensures positions == Pick(ds) && ValidPositions(positions) && 0 < used <= |ds|
    ensures forall m :: 0 <= m < used ==> CellOf(ds[m]) in positions
    ensures CellOf(ds[used - 1]) == positions[RingCount - 1]
  {
    PickValid(ds);
  }

  /** The rejection-sampling loop of `initGame`: draws boxes until three
      different ones are collected. It returns the positions and how many
      draws it used; the result agrees with `Pick`, every box drawn is among
      the positions, and the last draw used is the one that completed them. */
  method SampleRings(ds: seq<real>) returns (positions: seq<int>, used: nat)
    requires UnitDraws(ds) && ThreeDistinctCells(ds)
    ensures ValidPositions(positions)
    ensures positions == Pick(ds)
    ensures 0 < used <= |ds|
    ensures forall m :: 0 <= m < used ==> CellOf(ds[m]) in positions
    ensures CellOf(ds[used - 1]) == positions[RingCount - 1]
  {
    positions := [];
    used := 0;
    SampledStart(ds);
    while |positions| < RingCount && used < |ds|
      invariant Sampled(ds, used, positions)
      invariant |positions| <= RingCount && Distinct(positions)
      invariant forall a :: 0 <= a < |positions| ==> 0 <= positions[a] < GridSize
      decreases |ds| - used
    {
      SampledStep(ds, used, positions);
      var c := CellOf(ds[used]);
      positions := if c in positions then positions else positions + [c];
      used := used + 1;
    }
    SampledDone(ds, used, positions);
  }

  /** `initGame()` once the positions are drawn: no ring found, nine closed
      boxes, "next" hidden, status hidden. */
  function InitGame(positions: seq<int>): (g: Game)
    ensures g.ringsFound == 0 && g.ringPositions == positions
    ensures |g.boxes| == GridSize && forall i :: 0 <= i < GridSize ==> g.boxes[i] == Gift
    ensures !g.nextShown && !g.statusVisible
  {
    Game(0, positions, seq(GridSize, _ => Gift), false, false)
  }

  /** The click on box `index` completes the third find. */
  predicate WinsOn(g: Game, index: int) {
    index in g.ringPositions && g.ringsFound + 1 == RingCount
  }

  /** `handleBoxClick(box, index)`. A ring box shows its ring, counts one
      more find (also when it was found before: there is no guard) and hides
      the status; the find that brings the count to exactly three shows the
      "next" button. Any other box shows a miss and the status. */
  function HandleBoxClick(g: Game, index: int): (r: Game)
    requires 0 <= index < |g.boxes|
    ensures r.ringPositions == g.ringPositions && |r.boxes| == |g.boxes|
    ensures index in g.ringPositions ==>
              r.ringsFound == g.ringsFound + 1 && r.boxes[index] == Ring && !r.statusVisible
    ensures index !in g.ringPositions ==>
              r.ringsFound == g.ringsFound && r.boxes[index] == Miss && r.statusVisible
    ensures r.nextShown <==> g.nextShown || WinsOn(g, index)
    ensures forall i :: 0 <= i < |g.boxes| && i != index ==> r.boxes[i] == g.boxes[i]
  {
    if index in g.ringPositions then
      var found := g.ringsFound + 1;
      Game(found, g.ringPositions, g.boxes[index := Ring],
           g.nextShown || found == RingCount, false)
    else
      g.(boxes := g.boxes[index := Miss], statusVisible := true)
  }

  /** The game's standing invariant: the boxes show rings exactly at ring
      positions and misses elsewhere, the count is not negative, and "next"
      is shown exactly when at least three finds were counted. */
  predicate Consistent(g: Game) {
    && (|g.boxes| == 0 || |g.boxes| == GridSize)
    && g.ringsFound >= 0
    && (g.nextShown <==> g.ringsFound >= RingCount)
    && (forall i :: 0 <= i < |g.boxes| && g.boxes[i] == Ring ==> i in g.ringPositions)
    && (forall i :: 0 <= i < |g.boxes| && g.boxes[i] == Miss ==> i !in g.ringPositions)
  }

  lemma InitConsistent(positions: seq<int>)
    ensures Consistent(InitGame(positions))
  {
  }

  /** Every click keeps the game consistent. */
  lemma ClickKeepsConsistent(g: Game, index: int)
    requires Consistent(g) && 0 <= index < |g.boxes|
    ensures Consistent(HandleBoxClick(g, index))
  {
  }

  /** Finding the three rings one after another: the count reaches three,
      the win fires on the third find and only there, and "next" is shown. */
  lemma FindAllRings(positions: seq<int>)
    requires ValidPositions(positions)
    ensures var g0 := InitGame(positions);
      var g1 := HandleBoxClick(g0, positions[0]);
      var g2 := HandleBoxClick(g1, positions[1]);
      var g3 := HandleBoxClick(g2, positions[2]);
      && !WinsOn(g0, positions[0]) && !WinsOn(g1, positions[1]) && WinsOn(g2, positions[2])
      && g3.ringsFound == 3 && g3.nextShown
      && g3.boxes[positions[0]] == Ring && g3.boxes[positions[1]] == Ring
      && g3.boxes[positions[2]] == Ring
  {
  }

  /** The source has no guard against clicking a found ring again: three
      clicks on the same ring box count three finds and win although only
      one ring is uncovered, and a fourth click counts a fourth find. */
  lemma RepeatedRingClickCounts(positions: seq<int>)
    requires ValidPositions(positions)
    ensures var p := positions[0];
      var g1 := HandleBoxClick(InitGame(positions), p);
      var g2 := HandleBoxClick(g1, p);
      var g3 := HandleBoxClick(g2, p);
      var g4 := HandleBoxClick(g3, p);
      && WinsOn(g2, p) && g3.ringsFound == 3 && g3.nextShown
      && g3.boxes[positions[1]] == Gift && g3.boxes[positions[2]] == Gift
      && g4.ringsFound == 4 && !WinsOn(g3, p)
  {
  }
}

=== FILE: screens.dfy ===
/** Screen visibility and script.js `switchScreen`. A screen element carries
    the `active` class or not, and may have an inline `display` style that
    overrides it: `block` (shown) or `none` (hidden). */
module Screens {

  /** - active: ids of the screens carrying the `active` class
      - display: inline display per id, true for "block", false for "none";
        an id absent from the map has no inline display */
  datatype Screens = Screens(active: set<string>, display: map<string, bool>)

  /** A screen is on view when its inline display says so, or, without an
      inline display, when it is active. */
  predicate Visible(s: Screens, id: string) {
    if id in s.display then s.display[id] else id in s.active
  }

  /** `id` is the one screen on view. */
  ghost predicate OnlyVisible(s: Screens, id: string) {
    Visible(s, id) && forall other :: other != id ==> !Visible(s, other)
  }

  /** The target screens whose arrival stops the confetti. */
  predicate StopsConfetti(to: string) {
    to == "quizScreen2" || to == "quizScreen3" || to == "finalScreen"
  }

  /** The delayed half of `switchScreen(from, to)` (after the 300 ms fade):
      `from` loses `active` and is hidden, `to` gains `active` and is shown,
      and no other screen changes. */
  function SwitchScreen(s: Screens, from: string, to: string): (r: Screens)
    ensures to in r.active && Visible(r, to)
    ensures from != to ==> from !in r.active && !Visible(r, from)
    ensures forall id :: id != from && id != to ==>
              (id in r.active <==> id in s.active) && (Visible(r, id) <==> Visible(s, id))
  {
    Screens((s.active - {from}) + {to}, s.display[from := false][to := true])
  }

  /** Switching away from the one visible screen leaves exactly the target
      on view. */
  lemma SwitchKeepsOneVisible(s: Screens, from: string, to: string)
    requires OnlyVisible(s, from)
    ensures OnlyVisible(SwitchScreen(s, from, to), to)
  {
  }

  /** The completion of the hold gesture: the initial screen is hidden (it
      keeps its `active` class) and the first quiz screen becomes active. */
  function ShowFirstQuiz(s: Screens): (r: Screens)
    ensures "quizScreen1" in r.active && !Visible(r, "initialScreen")
    ensures forall id :: id != "quizScreen1" ==> (id in r.active <==> id in s.active)
    ensures forall id :: id != "initialScreen" && id != "quizScreen1" ==>
              (Visible(r, id) <==> Visible(s, id))
  {
    Screens(s.active + {"quizScreen1"}, s.display["initialScreen" := false])
  }

  /** From the initial screen alone on view, and the first quiz screen
      without inline display, completion leaves the first quiz screen alone
      on view. */
  lemma ShowFirstQuizKeepsOneVisible(s: Screens)
    requires OnlyVisible(s, "initialScreen") && "quizScreen1" !in s.display
    ensures OnlyVisible(ShowFirstQuiz(s), "quizScreen1")
  {
  }
}

=== FILE: sequencer.dfy ===
/** The page as one state machine: the application state threaded through
    every event handler of script.js. A DOM event runs all listeners
    registered for it, in registration order. A `setTimeout` callback is
    queued in `pending` and runs when an `Elapse` event picks it; the model
    lets pending callbacks run in any order. */
module Sequencer {
  import HG = HoldGesture
  import Q = Quiz
  import S = Screens
  import C = Confetti
  import G = RingGame
  import P = Popups

  /** A scheduled `setTimeout` callback. */
  datatype Callback =
    | ShowFirstQuiz                                               // completeHold, 500 ms
    | FinishSwitch(from: string, to: string)                      // switchScreen, 300 ms
    | QuizAdvance(container: string, answer: string, next: string) // option click, 500 ms
    | OpenPopup(k: int)                                           // popup No, 300 ms
    | SealBurst                                                   // wax seal, first listener, 300 ms
    | SealSwitch                                                  // wax seal, second listener, 300 ms
    | ExtraParticles                                              // valentine Yes, 500 ms

  /** - hold: the hold-to-confirm gesture
      - screens: `active` classes and inline display of the screens
      - currentScreen: the `currentScreen` variable
      - answers, selected: recorded quiz answers and selected options
      - reports: end-of-quiz reports shown so far
      - popups: open "Nahi" popups
      - game: the ring-finding minigame
      - confetti: canvas size, particles, animation running
      - noButtonHidden: whether the valentine No button is hidden
      - pending: scheduled callbacks */
  datatype App = App(
    hold: HG.Hold,
    screens: S.Screens,
    currentScreen: string,
    answers: Q.Answers,
    selected: Q.Selection,
    reports: seq<Q.Answers>,
    popups: set<int>,
    game: G.Game,
    confetti: C.Animator,
    noButtonHidden: bool,
    pending: seq<Callback>)

  /** The page after loading, on a canvas of the given size; the markup is
      assumed to show the initial screen. */
  function Init(width: real, height: real): App {
    App(HG.Initial, S.Screens({"initialScreen"}, map[]), "initial", Q.NoAnswers, {}, [],
        {}, G.Unplayed, C.Animator(width, height, false, []), false, [])
  }

  /** User gestures, timer firings and animation frames. */
  datatype Event =
    | HoldPress(now: int)                   // mousedown / touchstart on the hold button
    | HoldRelease                           // mouseup / mouseleave / touchend / touchcancel
    | HoldTick(now: int)                    // the 50 ms progress interval fires
    | ResetTick                             // the 20 ms fill-reset interval fires
    | OptionClick(container: string, option: nat, answer: string, next: string)
    | YesClick(cells: seq<real>)            // final screen Yes; the ring draws
    | NoClick                               // final screen No
    | PopupYes(k: int)
    | PopupNo(k: int)
    | BoxClick(index: int, burst: C.Burst)  // a box of the ring game
    | GameNextClick
    | LastThingClick(burst: C.Burst)
    | SealClick
    | ValentineYesClick(first: C.Burst, second: C.Burst)
    | AnimationFrame(redraws: seq<real>)
    | Elapse(i: int, burst: C.Burst)        // pending callback i runs

  /** The random input an elapsing callback may need. */
  predicate ElapseDraws(burst: C.Burst) {
    C.ValidBurst(burst) && C.ExtraBatchSize <= |burst.spawn|
  }

  /** Events that can happen: no progress tick reads the clock before the
      press that started its hold, random draws lie in [0, 1) and suffice,
      buttons and boxes exist, and an elapsing timeout is pending. */
  predicate ValidEvent(app: App, e: Event) {
    match e
    case HoldTick(now) => app.hold.holding ==> now >= app.hold.startTime
    case YesClick(cells) => G.UnitDraws(cells) && G.ThreeDistinctCells(cells)
    case PopupYes(k) => P.IsPopup(k)
    case PopupNo(k) => P.HasNoButton(k)
    case BoxClick(index, burst) => 0 <= index < |app.game.boxes| && C.ValidBurst(burst)
    case LastThingClick(burst) => C.ValidBurst(burst)
    case ValentineYesClick(first, second) => C.ValidBurst(first) && C.ValidBurst(second)
    case AnimationFrame(redraws) =>
      |app.confetti.particles| <= |redraws| && forall i :: 0 <= i < |redraws| ==> C.Unit(redraws[i])
    case Elapse(i, burst) =>
      0 <= i < |app.pending| && ElapseDraws(burst)
    case _ => true
  }

  /** The state every reachable page keeps. */
  predicate Invariant(app: App) {
    && 0.0 <= app.hold.fill <= 100.0
    && 0.0 <= app.hold.resetWidth <= 100.0
    && G.Consistent(app.game)
    && (|app.game.boxes| > 0 ==> G.ValidPositions(app.game.ringPositions))
    && (forall k :: k in app.popups ==> P.IsPopup(k))
    && (forall j :: 0 <= j < |app.pending| && app.pending[j].OpenPopup? ==>
          P.IsPopup(app.pending[j].k))
    && app.confetti.height >= 0.0
    && C.AllInBounds(app.confetti.particles, app.confetti.height)
  }

  lemma InitInvariant(width: real, height: real)
    requires height >= 0.0
    ensures Invariant(Init(width, height))
  {
  }

  /** The immediate half of `switchScreen(from, to)`: the fade-out starts
      (not modelled) and the rest is scheduled. */
  function BeginSwitch(app: App, from: string, to: string): (r: App)
    ensures r.pending == app.pending + [FinishSwitch(from, to)]
    ensures r == app.(pending := r.pending)
  {
    app.(pending := app.pending + [FinishSwitch(from, to)])
  }

  /** A firing of the progress interval; completion schedules the first
      quiz screen. */
  function OnHoldTick(app: App, now: int): (r: App)
    ensures r.hold == HG.HoldTick(app.hold, now).hold
    ensures r.pending == app.pending + (if HG.HoldTick(app.hold, now).completedNow then [ShowFirstQuiz] else [])
    ensures r == app.(hold := r.hold, pending := r.pending)
  {
    var t := HG.HoldTick(app.hold, now);
    app.(hold := t.hold, pending := app.pending + (if t.completedNow then [ShowFirstQuiz] else []))
  }

  /** A click on a quiz option: it becomes the selected option of its
      container, its answer is recorded, and the navigation is scheduled. */
  function OnOptionClick(app: App, container: string, option: nat, answer: string, next: string): (r: App)
    ensures r.selected == Q.Select(app.selected, container, option)
    ensures r.answers == Q.RecordAnswer(app.answers, container, answer)
    ensures r.pending == app.pending + [QuizAdvance(container, answer, next)]
    ensures r == app.(selected := r.selected, answers := r.answers, pending := r.pending)
  {
    app.(selected := Q.Select(app.selected, container, option),
         answers := Q.RecordAnswer(app.answers, container, answer),
         pending := app.pending + [QuizAdvance(container, answer, next)])
  }

  /** Final screen Yes: the alert listener, then the one that switches to the
      game screen and starts a fresh game on the drawn ring positions. */
  function OnYesClick(app: App, cells: seq<real>): (r: App)
    requires G.UnitDraws(cells) && G.ThreeDistinctCells(cells)
    ensures G.ValidPositions(r.game.ringPositions)
    ensures r.game == G.InitGame(G.Pick(cells))
    ensures r.pending == app.pending + [FinishSwitch("finalScreen", "gameScreen")]
    ensures r == app.(game := r.game, pending := r.pending)
  {
    G.PickValid(cells);
    BeginSwitch(app, "finalScreen", "gameScreen").(game := G.InitGame(G.Pick(cells)))
  }

  /** No on popup `k`: the relocation listener (not modelled), then the one
      that closes the popup and schedules its successor. */
  function OnPopupNo(app: App, k: int): (r: App)
    requires P.HasNoButton(k)
    ensures r.popups == P.PressNo(app.popups, k)
    ensures r.pending == app.pending + [OpenPopup(P.Successor(k))]
    ensures r == app.(popups := r.popups, pending := r.pending)
  {
    app.(popups := P.PressNo(app.popups, k), pending := app.pending + [OpenPopup(P.Successor(k))])
  }

  /** A click on box `index`: the game handles it, and the winning click
      starts a confetti burst. */
  function OnBoxClick(app: App, index: int, burst: C.Burst): (r: App)
    requires 0 <= index < |app.game.boxes| && C.ValidBurst(burst)
    ensures r.game == G.HandleBoxClick(app.game, index)
    ensures G.WinsOn(app.game, index) ==> r.confetti.running && |r.confetti.particles| == C.BatchSize
    ensures !G.WinsOn(app.game, index) ==> r.confetti == app.confetti
    ensures r == app.(game := r.game, confetti := r.confetti)
  {
    app.(game := G.HandleBoxClick(app.game, index),
         confetti := if G.WinsOn(app.game, index) then C.StartBurst(app.confetti, burst)
                     else app.confetti)
  }

  /** Valentine Yes: the first listener hides the No button and starts a
      burst; the second switches to the success screen, starts another burst
      and schedules the extra particles. */
  function OnValentineYes(app: App, first: C.Burst, second: C.Burst): (r: App)
    requires C.ValidBurst(first) && C.ValidBurst(second)
    ensures r.noButtonHidden && r.confetti.running && |r.confetti.particles| == C.BatchSize
    ensures r.pending == app.pending + [FinishSwitch("valentineScreen", "successScreen"), ExtraParticles]
    ensures r == app.(noButtonHidden := true, confetti := r.confetti, pending := r.pending)
    ensures r.confetti.width == app.confetti.width && r.confetti.height == app.confetti.height
  {
    var a1 := app.(noButtonHidden := true, confetti := C.StartBurst(app.confetti, first));
    var a2 := BeginSwitch(a1, "valentineScreen", "successScreen");
    a2.(confetti := C.StartBurst(a2.confetti, second), pending := a2.pending + [ExtraParticles])
  }

  /** The delayed half of `switchScreen(from, to)`: the screens switch, and
      arriving at the second quiz screen, the third, or the final screen
      stops the confetti. */
  function FinishSwitchScreens(app: App, from: string, to: string): (r: App)
    ensures r.screens == S.SwitchScreen(app.screens, from, to)
    ensures r.confetti.running <==> app.confetti.running && !S.StopsConfetti(to)
    ensures r.confetti.particles == app.confetti.particles
    ensures r == app.(screens := r.screens, confetti := r.confetti)
  {
    app.(screens := S.SwitchScreen(app.screens, from, to),
         confetti := if S.StopsConfetti(to) then C.Stop(app.confetti) else app.confetti)
  }

  /** The 500 ms quiz navigation: with a next screen, the switch starts and
      `currentScreen` becomes the derived screen name; without one, the quiz
      report is shown. */
  function AdvanceQuiz(app: App, container: string, answer: string, next: string): (r: App)
    ensures next != "" ==> (r.currentScreen == Q.ScreenName(next)
              && r.pending == app.pending + [FinishSwitch(container, next)]
              && r.reports == app.reports)
    ensures next == "" ==> (r.reports == app.reports + [Q.Report(app.answers, answer)]
              && r.pending == app.pending && r.currentScreen == app.currentScreen)
    ensures r == app.(currentScreen := r.currentScreen, pending := r.pending, reports := r.reports)
  {
    if next != "" then BeginSwitch(app, container, next).(currentScreen := Q.ScreenName(next))
    else app.(reports := app.reports + [Q.Report(app.answers, answer)])
  }

  /** Runs callback `cb`; `burst` supplies the random draws it needs. */
  function Run(app: App, cb: Callback, burst: C.Burst): (r: App)
    requires ElapseDraws(burst)
    ensures app.pending <= r.pending
  {
    match cb
    case ShowFirstQuiz =>
      app.(screens := S.ShowFirstQuiz(app.screens), currentScreen := "quiz1",
           confetti := C.StartBurst(app.confetti, burst))
    case FinishSwitch(from, to) => FinishSwitchScreens(app, from, to)
    case QuizAdvance(container, answer, next) => AdvanceQuiz(app, container, answer, next)
    case OpenPopup(k) => app.(popups := P.Open(app.popups, k))
    case SealBurst => app.(confetti := C.StartBurst(app.confetti, burst))
    case SealSwitch => BeginSwitch(app, "envelopeScreen", "valentineScreen")
    case ExtraParticles => app.(confetti := C.AddExtra(app.confetti, burst.spawn))
  }

  /** Pending callback `i` elapses: it leaves the queue, the other callbacks
      keep their order, and then it runs. */
  function OnElapse(app: App, i: int, burst: C.Burst): (r: App)
    requires 0 <= i < |app.pending| && ElapseDraws(burst)
    ensures |r.pending| >= |app.pending| - 1
    ensures r.pending[..|app.pending| - 1] == app.pending[..i] + app.pending[i + 1..]
  {
    Run(app.(pending := app.pending[..i] + app.pending[i + 1..]), app.pending[i], burst)
  }

  /** One event, with all of its listeners in registration order. No
      listener cancels a timeout: only the elapsing callback leaves the
      queue. */
  function Step(app: App, e: Event): (r: App)
    requires ValidEvent(app, e)
    ensures !e.Elapse? ==> app.pending <= r.pending
    ensures e.Elapse? ==> |r.pending| >= |app.pending| - 1
  {
    match e
    case HoldPress(now) => app.(hold := HG.StartHold(app.hold, now))
    case HoldRelease => app.(hold := HG.StopHold(app.hold))
    case HoldTick(now) => OnHoldTick(app, now)
    case ResetTick => app.(hold := HG.ResetTick(app.hold))
    case OptionClick(container, option, answer, next) =>
      OnOptionClick(app, container, option, answer, next)
    case YesClick(cells) => OnYesClick(app, cells)
    case NoClick => app.(popups := P.OpenFirst(app.popups))
    case PopupYes(k) => app.(popups := P.PressYes(app.popups, k))
    case PopupNo(k) => OnPopupNo(app, k)
    case BoxClick(index, burst) => OnBoxClick(app, index, burst)
    case GameNextClick => BeginSwitch(app, "gameScreen", "appreciationScreen")
    case LastThingClick(burst) =>
      BeginSwitch(app.(confetti := C.StartBurst(app.confetti, burst)),
                  "appreciationScreen", "envelopeScreen")
    case SealClick => app.(pending := app.pending + [SealBurst, SealSwitch])
    case ValentineYesClick(first, second) => OnValentineYes(app, first, second)
    case AnimationFrame(redraws) => app.(confetti := C.Tick(app.confetti, redraws))
    case Elapse(i, burst) => OnElapse(app, i, burst)
  }

  /** Every pending callback keeps the invariant when it runs. */
  lemma RunPreserves(app: App, cb: Callback, burst: C.Burst)
    requires ElapseDraws(burst)
    requires Invariant(app) && (cb.OpenPopup? ==> P.IsPopup(cb.k))
    ensures Invariant(Run(app, cb, burst))
  {
  }

  /** The hold gesture's events keep the invariant. */
  lemma HoldEventPreserves(app: App, e: Event)
    requires ValidEvent(app, e) && Invariant(app)
    requires e.HoldPress? || e.HoldRelease? || e.HoldTick? || e.ResetTick?
    ensures Invariant(Step(app, e))
  {
  }

  /** Quiz, popup and navigation clicks keep the invariant. */
  lemma ClickEventPreserves(app: App, e: Event)
    requires ValidEvent(app, e) && Invariant(app)
    requires e.OptionClick? || e.NoClick? || e.PopupYes? || e.PopupNo? || e.GameNextClick? || e.SealClick?
    ensures Invariant(Step(app, e))
  {
  }

  /** Events that start or advance confetti keep the invariant. */
  lemma ConfettiEventPreserves(app: App, e: Event)
    requires ValidEvent(app, e) && Invariant(app)
    requires e.LastThingClick? || e.ValentineYesClick? || e.AnimationFrame?
    ensures Invariant(Step(app, e))
  {
  }

  /** Final screen Yes and box clicks keep the invariant: a fresh game and
      every click on it are consistent. */
  lemma GameEventPreserves(app: App, e: Event)
    requires ValidEvent(app, e) && Invariant(app)
    requires e.YesClick? || e.BoxClick?
    ensures Invariant(Step(app, e))
  {
    if e.YesClick? {
      G.InitConsistent(G.Pick(e.cells));
    } else {
      G.ClickKeepsConsistent(app.game, e.index);
    }
  }

  /** A pending callback that elapses keeps the invariant. */
  lemma ElapsePreserves(app: App, i: int, burst: C.Burst)
    requires ValidEvent(app, Elapse(i, burst)) && Invariant(app)
    ensures Invariant(Step(app, Elapse(i, burst)))
  {
    var rest := app.(pending := app.pending[..i] + app.pending[i + 1..]);
    assert Invariant(rest);
    RunPreserves(rest, app.pending[i], burst);
  }

  /** Every event keeps the invariant. */
  lemma StepPreserves(app: App, e: Event)
    requires ValidEvent(app, e) && Invariant(app)
    ensures Invariant(Step(app, e))
  {
    if e.HoldPress? || e.HoldRelease? || e.HoldTick? || e.ResetTick? {
      HoldEventPreserves(app, e);
    } else if e.LastThingClick? || e.ValentineYesClick? || e.AnimationFrame? {
      ConfettiEventPreserves(app, e);
    } else if e.YesClick? || e.BoxClick? {
      GameEventPreserves(app, e);
    } else if e.Elapse? {
      ElapsePreserves(app, e.i, e.burst);
    } else {
      ClickEventPreserves(app, e);
    }
  }

  /** Pressing again while holding changes nothing; releasing while not
      holding changes nothing. */
  lemma HoldGuards(app: App, now: int)
    ensures app.hold.holding ==> Step(app, HoldPress(now)) == app
    ensures !app.hold.holding ==> Step(app, HoldRelease) == app
  {
  }

  /** The tick that completes the hold ends it and schedules the first quiz
      screen; when that callback runs, the initial screen is hidden, the
      first quiz screen is active, `currentScreen` is "quiz1" and a batch of
      80 confetti particles is animating. */
  lemma HoldCompletionShowsFirstQuiz(app: App, now: int, burst: C.Burst)
    requires app.hold.holding && now - app.hold.startTime >= HG.HoldDuration
    requires ElapseDraws(burst)
    ensures var a1 := Step(app, HoldTick(now));
      && !a1.hold.holding && a1.hold.completed && a1.hold.fill == 100.0
      && a1.pending == app.pending + [ShowFirstQuiz]
      && ValidEvent(a1, Elapse(|app.pending|, burst))
      && var a2 := Step(a1, Elapse(|app.pending|, burst));
      && a2.currentScreen == "quiz1"
      && "quizScreen1" in a2.screens.active && !S.Visible(a2.screens, "initialScreen")
      && a2.confetti.running && |a2.confetti.particles| == C.BatchSize
      && a2.pending == app.pending
  {
    var a1 := Step(app, HoldTick(now));
    assert a1.pending[..|app.pending|] + a1.pending[|app.pending| + 1..] == app.pending;
  }

  /** A quiz option with a next screen: the click records the answer in its
      container's slot; after the 500 ms delay `currentScreen` is the next
      screen's derived name and the switch is under way; after the fade the
      next screen is on view in place of the container, and the confetti is
      stopped exactly when the next screen is the second or third quiz
      screen or the final screen. */
  lemma QuizNavigation(app: App, container: string, option: nat, answer: string, next: string,
                       burst: C.Burst)
    requires next != "" && ElapseDraws(burst)
    requires S.OnlyVisible(app.screens, container)
    ensures var n := |app.pending|;
      var a1 := Step(app, OptionClick(container, option, answer, next));
      && a1.answers == Q.RecordAnswer(app.answers, container, answer)
      && ValidEvent(a1, Elapse(n, burst))
      && var a2 := Step(a1, Elapse(n, burst));
      && a2.currentScreen == Q.ScreenName(next)
      && a2.pending == app.pending + [FinishSwitch(container, next)]
      && ValidEvent(a2, Elapse(n, burst))
      && var a3 := Step(a2, Elapse(n, burst));
      && S.OnlyVisible(a3.screens, next)
      && (a3.confetti.running <==> app.confetti.running && !S.StopsConfetti(next))
      && a3.answers == a1.answers && a3.currentScreen == a2.currentScreen
      && a3.pending == app.pending
  {
    var n := |app.pending|;
    var a1 := Step(app, OptionClick(container, option, answer, next));
    assert a1.pending[..n] + a1.pending[n + 1..] == app.pending;
    var a2 := Step(a1, Elapse(n, burst));
    assert a2.pending[..n] + a2.pending[n + 1..] == app.pending;
    S.SwitchKeepsOneVisible(app.screens, container, next);
  }

  /** The first quiz screen's navigation to the second: `currentScreen`
      becomes "quiz2". */
  lemma FirstQuizToSecond(app: App, option: nat, answer: string, burst: C.Burst)
    requires ElapseDraws(burst)
    ensures var n := |app.pending|;
      var a1 := Step(app, OptionClick("quizScreen1", option, answer, "quizScreen2"));
      && a1.answers.question1 == answer
      && a1.answers.question2 == app.answers.question2
      && a1.answers.question3 == app.answers.question3
      && Step(a1, Elapse(n, burst)).currentScreen == "quiz2"
  {
    Q.ScreenNameQuiz2();
    var n := |app.pending|;
    var a1 := Step(app, OptionClick("quizScreen1", option, answer, "quizScreen2"));
    assert a1.pending[n] == QuizAdvance("quizScreen1", answer, "quizScreen2");
    var rest := a1.(pending := a1.pending[..n] + a1.pending[n + 1..]);
    assert Step(a1, Elapse(n, burst)) == AdvanceQuiz(rest, "quizScreen1", answer, "quizScreen2");
    assert Q.Slot(a1.answers, 1) == answer;
    assert Q.Slot(a1.answers, 2) == app.answers.question2;
    assert Q.Slot(a1.answers, 3) == app.answers.question3;
  }

  /** No on the one open popup `k` closes it; when the delay elapses its
      successor is the one open popup. The last popup has no No button. */
  lemma PopupNoAdvances(app: App, k: int, burst: C.Burst)
    requires P.HasNoButton(k) && app.popups == {k} && ElapseDraws(burst)
    ensures var a1 := Step(app, PopupNo(k));
      && a1.popups == {}
      && a1.pending == app.pending + [OpenPopup(k + 1)]
      && ValidEvent(a1, Elapse(|app.pending|, burst))
      && var a2 := Step(a1, Elapse(|app.pending|, burst));
      && a2.popups == {k + 1} && a2.pending == app.pending
    ensures !ValidEvent(app, PopupNo(P.PopupCount))
  {
    var a1 := Step(app, PopupNo(k));
    assert a1.pending[..|app.pending|] + a1.pending[|app.pending| + 1..] == app.pending;
  }

  /** Yes on an open popup closes it and touches nothing else. */
  lemma PopupYesCloses(app: App, k: int)
    requires P.IsPopup(k)
    ensures Step(app, PopupYes(k)) == app.(popups := app.popups - {k})
  {
  }

  /** Final screen Yes starts a fresh game on three distinct boxes and
      schedules the switch to the game screen; once the switch is done the
      game screen is on view in place of the final screen. */
  lemma YesStartsGame(app: App, cells: seq<real>, burst: C.Burst)
    requires G.UnitDraws(cells) && G.ThreeDistinctCells(cells) && ElapseDraws(burst)
    requires S.OnlyVisible(app.screens, "finalScreen")
    ensures var a1 := Step(app, YesClick(cells));
      && a1.game.ringsFound == 0 && G.ValidPositions(a1.game.ringPositions)
      && !a1.game.nextShown && |a1.game.boxes| == G.GridSize
      && ValidEvent(a1, Elapse(|app.pending|, burst))
      && var a2 := Step(a1, Elapse(|app.pending|, burst));
      && S.OnlyVisible(a2.screens, "gameScreen") && a2.game == a1.game
      && a2.confetti == app.confetti
  {
    S.SwitchKeepsOneVisible(app.screens, "finalScreen", "gameScreen");
  }

  /** The click that finds the third ring starts a batch of 80 animating
      particles; any other click leaves the confetti alone. */
  lemma BoxClickConfetti(app: App, index: int, burst: C.Burst)
    requires 0 <= index < |app.game.boxes| && C.ValidBurst(burst)
    ensures var r := Step(app, BoxClick(index, burst));
      && r.game == G.HandleBoxClick(app.game, index)
      && (G.WinsOn(app.game, index) ==> r.confetti.running && |r.confetti.particles| == C.BatchSize)
      && (!G.WinsOn(app.game, index) ==> r.confetti == app.confetti)
      && r.pending == app.pending
  {
  }

  /** An elapsing callback leaves the queue and the others keep their
      order; what it schedules itself goes after them. */
  lemma ElapseRemovesOne(app: App, i: int, burst: C.Burst)
    requires ValidEvent(app, Elapse(i, burst))
    ensures var r := Step(app, Elapse(i, burst));
      && |app.pending| - 1 <= |r.pending|
      && r.pending[..|app.pending| - 1] == app.pending[..i] + app.pending[i + 1..]
  {
  }
}
